=== FILE: README.md ===
# ConvertX batch converter — a Dafny model

ConvertX renames files from one extension to another in bulk. Its procedure
`convert_files` does the following:

1. It lists an input folder and keeps the names whose lower-cased form ends with the lower-cased
   old extension.
2. It stops when nothing matches, or when the operator's answer, stripped and lower-cased, is not
   `"y"`.
3. Otherwise it opens two append-only logs in the output folder and writes a run marker to each.
4. It then processes every matched name in listing order:
   - The destination name is `filename[:-len(old_ext)] + new_ext`.
   - If the destination path exists, the file is logged SKIPPED.
   - Otherwise, for the pair `.ipynb` → `.py`, it writes the source lines of the code cells, each
     cell followed by `"\n"`. For any other pair it copies the text.
   - If asked to, it removes the source file, then logs SUCCESS.
   - Any exception is logged as ERROR in the error log, and the batch carries on.

The model is functional:

- The file system is a map from `Path(dir, name)` to text.
- The two logs are sequences of structured entries (`RunMarker` or `Logged(record)`).
- Failing opens and removes are given by a `Faults` value, which lists the paths that cannot be
  read, written or removed.
- `json.load` is a function `parse` supplied with the environment.
- The directory listing, the operator's answer and the two time stamps are parameters of `Run`.

Modules, following the program's structure:

- `Text`: the `str` operations used: `lower` (ASCII letters), `endswith`, `strip` (Python's
  `isspace` set), prefix slicing with a negative stop, and `writelines`.
- `Newlines`: the universal-newline translation of a text-mode read.
- `Selection`: matching, the destination name, and the confirmation test.
- `Notebooks`: the code-cell extraction loop and the script it writes.
- `Folds`: a left fold that keeps one report per step. The file loop is this fold.
- `Conversion`: one file (`Process`, `Step`), the loop (`RunBatch`) and the whole procedure (`Run`).
- `ConversionProps`: properties of whole batches, such as re-runs, duplicate destinations and
  removed sources.

Behaviours of the program that are easy to miss, each carried by a lemma:

- **Notebook output.** The program appends `"\n"` after every code cell. A markdown cell followed
  by a code cell with lines `"x = 1\n"` and `"y = 2\n"` therefore gives `"x = 1\ny = 2\n\n"`
  (`Notebooks.ScriptExample`).
- **Copies are not byte-identical.** The source is read in text mode, so `"\r\n"` and a lone `"\r"`
  become `"\n"`. A copy equals its source exactly when the source has no carriage return
  (`Newlines.UniversalFixedIff`).
- **Empty old extension.** `filename[:-0]` is the empty string, so an empty old extension selects
  every name and renames each one to the bare new extension (`Selection.EmptyOldExtension`).
  All files then share one destination. Unless removal in a single folder is requested, once one
  of them has been converted or skipped, every later one is skipped
  (`ConversionProps.DuplicateDestinationSkipped`). If the new extension is empty too, the
  destination is the output folder itself, which exists, so every file is skipped
  (`ConversionProps.EmptyExtensionsSkipAll`).
- **Re-runs.** A second run skips every file if the first run left every destination in place and
  did not remove sources from its own output folder (`ConversionProps.RerunSkipsEverything`). A
  destination is left in place when the record is SKIPPED or SUCCESS, and also when it is an ERROR
  raised by the removal after the write. A file whose read, parse or write failed is not
  guaranteed to be skipped on the second run.
- **Removal in a single folder.** When input and output are the same folder and removal is
  requested, a conversion can remove a file that an earlier name's destination was. A later name
  with that same destination is then converted, not skipped
  (`ConversionProps.SameFolderDuplicateConverted`).
- **Log paths count as existing.** The two log paths in the output folder exist while the loop runs.
  A file whose destination name is `conversion_log.txt` or `error_log.txt` is therefore always
  skipped (`Conversion.Exists`).

## Model

| member | source | states |
|---|---|---|
| Text.Lower | ConvertX.py:14 | `str.lower` as used at lines 14 and 25, character by character; LowerSlice and LowerConcat relate it to slicing and concatenation |
| Text.EndsWith | ConvertX.py:14 | `str.endswith`: the string's last `len(suffix)` characters are the suffix; the empty suffix ends every string |
| Selection.Select | ConvertX.py:13-15 | a name is selected iff it is listed and its lower-cased form ends with the lower-cased old extension; no more names than listed |
| Selection.SelectAppend | ConvertX.py:13-15 | selection keeps listing order: selecting from a concatenation is concatenating the selections |
| Selection.SelectDistinct | ConvertX.py:13-15 | a listing without repeats yields a selection without repeats |
| Selection.Matches | ConvertX.py:14 | the selection test, the lower-cased name ends with the lower-cased extension; characterised by MatchesIff |
| Selection.MatchesIff | ConvertX.py:14 | matching is a case-insensitive comparison of the name's last `len(old_ext)` characters with the extension |
| Selection.Confirmed | ConvertX.py:25-26 | the confirmation test on the operator's answer; characterised by ConfirmedIff |
| Selection.ConfirmedIff | ConvertX.py:25-28 | the run proceeds iff the stripped answer is exactly "y" or "Y" |
| Selection.ConfirmedPadded | ConvertX.py:25-26 | " Y\n" confirms: surrounding whitespace and case are ignored |
| Selection.NotConfirmedYes | ConvertX.py:25-28 | "yes" cancels |
| Text.Strip | ConvertX.py:25 | the stripped answer neither starts nor ends with whitespace |
| Text.StripSlice | ConvertX.py:25 | the stripped answer is the contiguous piece of the input between whitespace-only ends |
| Text.TrimStart | ConvertX.py:25 | leading whitespace is dropped and only whitespace is dropped |
| Text.TrimEnd | ConvertX.py:25 | trailing whitespace is dropped and only whitespace is dropped |
| Text.PyPrefix | ConvertX.py:41 | a slice `s[:stop]` is a prefix of `s` |
| Selection.DestName | ConvertX.py:41 | the destination name `filename[: -len(old_ext)] + new_ext`; its properties are DestNameOfMatched, EmptyOldExtension, DestNameRoundTrip and DestNameCollision |
| Selection.DestNameOfMatched | ConvertX.py:41 | for a matched name and a non-empty old extension, the destination is the stem followed by the new extension and ends with the new extension |
| Selection.EmptyOldExtension | ConvertX.py:41 | with an empty old extension every listed name is selected and every destination name is the bare new extension |
| Selection.DestNameRoundTrip | ConvertX.py:41 | converting the destination back, with the extensions swapped, restores the original name |
| Selection.DestNameCollision | ConvertX.py:41-42 | two matched names with the same destination have the same stem and differ only in the case of their extension |
| Newlines.Universal | ConvertX.py:67-68 | text read in text mode holds no carriage return and is no longer than the file |
| Newlines.UniversalKeepsPlainText | ConvertX.py:67-71 | text without carriage returns is copied unchanged |
| Newlines.UniversalFixedIff | ConvertX.py:67-71 | a copy equals its source iff the source holds no carriage return |
| Newlines.UniversalIdempotent | ConvertX.py:67-68 | reading a copy back gives the copied text |
| Newlines.UniversalExample | ConvertX.py:67-68 | "a\r\nb\rc\n" is read as "a\nb\nc\n" |
| Notebooks.CodeLines | ConvertX.py:56-60 | the reference definition of the extracted lines: each code cell's source lines (none without `source`) then "\n", in cell order; ExtractCode proves the loop computes it |
| Notebooks.CodeCells | ConvertX.py:57-58 | the kept cells are exactly the cells whose `cell_type` is "code" |
| Notebooks.ExtractCode | ConvertX.py:56-60 | the extraction loop yields, in order, each code cell's source lines followed by "\n"; a notebook without `cells` yields nothing |
| Notebooks.CodeLinesAppend | ConvertX.py:56-60 | the lines of consecutive runs of cells are concatenated in order |
| Notebooks.OnlyCodeCellsCount | ConvertX.py:56-60 | dropping every non-code cell leaves the output unchanged |
| Notebooks.NoCodeNoLines | ConvertX.py:56-60 | a notebook without code cells yields no lines |
| Notebooks.CodeLinesLength | ConvertX.py:56-60 | the output has the code cells' source lines plus one separator per code cell |
| Notebooks.MissingKeys | ConvertX.py:57-59 | a missing `cells` key gives an empty script; a code cell without `source` gives "\n" |
| Notebooks.Script | ConvertX.py:56-63 | the text written for a notebook, the extracted lines joined by `writelines`; ExtractCode proves the loop computes these lines |
| Notebooks.ScriptExample | ConvertX.py:56-63 | markdown then code ["x = 1\n", "y = 2\n"] writes "x = 1\ny = 2\n\n" |
| Text.Concat | ConvertX.py:63 | what `writelines` writes: the lines joined with nothing in between; ConcatAppend splits it |
| Text.ConcatAppend | ConvertX.py:63 | writing two batches of lines writes their concatenation |
| Conversion.Exists | ConvertX.py:46 | `os.path.exists` on a destination: a file, one of the two open logs, the output folder itself (names "" and ".") or its parent ("..") |
| Conversion.IsNotebookPair | ConvertX.py:51 | the notebook transform applies exactly for old extension ".ipynb" and new extension ".py", compared case-sensitively |
| Conversion.ReadText | ConvertX.py:53-54 | a text-mode read of the source, failing when it is missing or unreadable; the copy branch at 67-68 reads the same way |
| Conversion.WriteText | ConvertX.py:62-63 | opening the destination for writing and writing the text, failing on an unwritable path; also the copy branch at 70-71 |
| Conversion.RemoveFile | ConvertX.py:73-74 | `os.remove` of the source, failing on a missing or undeletable path |
| Conversion.Converted | ConvertX.py:51-68 | the text to write: the script of the parsed notebook for .ipynb→.py, the text read otherwise; its outcomes are stated by ProcessDecision |
| Conversion.Process | ConvertX.py:44-81 | every processed file gets exactly one record, naming that file |
| Conversion.ProcessDecision | ConvertX.py:46-81 | SKIPPED iff the destination exists, changing nothing; SUCCESS only when the destination is writable and, with removal requested, the source removable; SUCCESS, and an ERROR from the removal, leave the destination holding the extracted script of the parsed notebook for .ipynb→.py and the text read otherwise; each ERROR cause with its condition, in the order read, parse, write, remove (a write fails only after a good read and parse, a removal only after a good write and only for a source that cannot be removed); an unreadable source is an ERROR |
| Conversion.ProcessSucceeds | ConvertX.py:46-76 | a file whose destination is missing and whose source can be read (and parsed for .ipynb→.py), written and, when asked, removed, is recorded SUCCESS |
| Conversion.ProcessFiles | ConvertX.py:46-74 | no existing file changes; only the destination is created; an ERROR leaves a new destination iff removal failed; only the source is removed, and it is removed iff removal was requested and the record is SUCCESS |
| Conversion.StepSkipped | ConvertX.py:46-49 | a file whose destination exists adds one SKIPPED record to the main log and changes nothing else |
| Conversion.StepLogs | ConvertX.py:76-80 | each file logs one record for itself: SUCCESS and SKIPPED in the main log, ERROR in the error log |
| Conversion.Step | ConvertX.py:46-81 | one loop iteration with its log write; stated by StepSkipped and StepLogs |
| Conversion.RunBatch | ConvertX.py:39 | the loop over the matched names; stated by BatchTrace, BatchLogs and BatchFiles |
| Conversion.BatchTrace | ConvertX.py:39 | the loop gives one record per name, in order, each naming its file |
| Conversion.BatchLogs | ConvertX.py:39-81 | after the loop each log is what it held before plus the records that belong in it, in order |
| Conversion.BatchFiles | ConvertX.py:39-81 | new files are destinations; removed files are sources and only with removal requested; without removal every file stays with its contents; with separate folders (or no removal) no remaining file changes |
| Conversion.Run | ConvertX.py:13-81 | no matches iff the selection is empty; cancelled iff something matched and the answer is not "y"; stopping early changes nothing; a completed run gives one record per matched name and prepends a run marker to each log's new records |
| Folds.FoldSplit | ConvertX.py:39 | a sequential loop over a list is the loop over a prefix followed by the loop over the rest |
| ConversionProps.BatchSplit | ConvertX.py:39 | a batch is its first k files followed by the rest, from the state they leave |
| ConversionProps.BatchAt | ConvertX.py:39-46 | the k-th record is what processing gives on the files the first k left |
| ConversionProps.ExistsPersists | ConvertX.py:73-74 | unless removal in the same folder is requested, an output-folder path that exists before a batch exists after it |
| ConversionProps.DestinationsEstablished | ConvertX.py:46-71 | unless removal in a single folder is requested, after a batch every file recorded SKIPPED, SUCCESS, or ERROR from the removal has its destination in place |
| ConversionProps.DuplicateDestinationSkipped | ConvertX.py:46-49 | unless removal in a single folder is requested, a later file with the same destination as an earlier file recorded SKIPPED, SUCCESS, or ERROR from the removal is SKIPPED |
| ConversionProps.SkipsWhenAllExist | ConvertX.py:46-49 | when every destination exists, the batch logs only SKIPPED records, changes no file and writes no error |
| ConversionProps.RerunSkipsEverything | ConvertX.py:46-49 | unless removal in a single folder is requested, re-running a batch whose only ERRORs, if any, came from removals skips every file and changes no file, whatever faults the second run meets |
| ConversionProps.SameFolderDuplicateConverted | ConvertX.py:41-49 | with one folder and removal requested, "a.txt" is SKIPPED, "a.txt.txt" is converted and removed, and "a.TXT", with the same destination as "a.txt", is then converted |
| ConversionProps.EmptyExtensionsSkipAll | ConvertX.py:41-49 | with both extensions empty, the destination is the output folder itself and every file is SKIPPED |
| ConversionProps.SourceRemovedIffConverted | ConvertX.py:73-76 | with separate folders, a source is gone after the batch iff it existed, removal was requested and its record is SUCCESS |
| ConversionProps.ConfirmedY | ConvertX.py:25-26 | "y" confirms |
| ConversionProps.SelectOne | ConvertX.py:13-15 | the listing ["a.txt"] selects "a.txt" for ".txt" |
| ConversionProps.CopyExampleStep | ConvertX.py:65-76 | converting "a.txt" holding "hello\n" to .md writes "a.md" holding "hello\n" and records SUCCESS |
| ConversionProps.CopyExample | ConvertX.py:13-76 | the whole run on that file completes with one SUCCESS, and the input and output files are both "hello\n" |

## Left out

- Console output (`rich`), the progress bar (`tqdm`) and the final messages are not modelled; they do not affect files or logs.
- `main` and its prompts are not modelled; `convert_files` takes the arguments and the confirmation answer as parameters.
- `datetime.now()` is replaced by the two stamp parameters of `Run`.
- Conversion.Exists: subdirectories of the output folder other than the folder itself and its parent are not modelled. A destination name equal to such a subdirectory's name exists in the program but not in the model.
- `os.makedirs` and directories in general are not modelled: the output folder exists from the start, even on a cancelled run, and paths are (folder, name) pairs without normalisation or case-insensitive file systems.
- `os.listdir` is the `listing` parameter; whether an entry is a regular file is not modelled.
- UTF-8 decoding and `errors="ignore"`: file contents are already decoded text.
- `json.load` is the `parse` parameter, which also stands for the shape checks the loop makes. A decoding failure, invalid JSON, or a shape the loop raises on all count as `NotANotebook`. Shapes it raises on include cells that are not objects and a `source` that cannot be iterated, such as a number or `null`.
- A `source` that is a string (a multiline string, as notebooks allow) is extended character by character and joined back by `writelines`. `parse` gives it as the one-line list `[s]`, which yields the same script. A `source` that is an object writes its keys, which `parse` gives as that list of keys.
- Conversion.Converted: when `writelines` fails on a non-string line after the destination was opened, the program leaves a destination holding the lines before it. The model writes nothing and records `NotANotebook`.
- Line endings on write: writing in text mode is taken to be POSIX, which leaves "\n" unchanged.
- Exception messages and the exact wording of log lines: records carry the file, the destination or a failure kind instead.
- Failures of the log files themselves: writing a log is taken never to fail.
- A matched file that is itself one of the two logs is not modelled: the logs are kept outside the file map.
- Faults are fixed sets of paths for the whole run; faults that come and go between files are not modelled.
- Concurrent runs and interruption part-way through a file are not modelled.
- Text.LowerChar: lower-cases only ASCII letters, whereas Python's `str.lower` also maps other Unicode letters.
- Conversion.BatchFiles: no remaining file changes is proved only under `Separated`. If removal is requested and the input and output folders are the same, a removed source can be re-created by a later file's conversion.
- ConversionProps.DestinationsEstablished: proved only under `Separated` (no removal, or separate folders). With removal in a single folder, a later conversion can remove an earlier file's destination.
- ConversionProps.DuplicateDestinationSkipped: proved only under `Separated`. `ConversionProps.SameFolderDuplicateConverted` shows a later duplicate being converted when that condition fails.
- ConversionProps.RerunSkipsEverything: proved only under `Separated` and for a first run whose ERRORs, if any, came from removals. A file whose read, parse or write failed is not guaranteed to be skipped by the second run.
- ConversionProps.SourceRemovedIffConverted: proved only for separate input and output folders and a listing without repeats, for the same reason.

=== FILE: conversion.dfy ===
/**
 The batch conversion procedure `convert_files` with its I/O abstracted: the
 file system is a map from paths to text, failing file operations are
 described by a `Faults` value, JSON parsing is a function supplied by the
 environment, and the two append-only logs are sequences of structured
 entries.
 */
module Conversion {
  import opened Wrappers
  import opened Text
  import opened Newlines
  import opened Selection
  import opened Notebooks
  import opened Folds

  /** The log files, both created in the output folder before the first file is processed. */
  const LogName := "conversion_log.txt"
  const ErrorLogName := "error_log.txt"

  /** The one extension pair that selects the notebook transform (compared case-sensitively). */
  const NotebookExt := ".ipynb"
  const ScriptExt := ".py"

  /** `os.path.join(dir, name)`, kept as a pair. */
  datatype Path = Path(dir: string, name: string)

  /** The arguments of `convert_files`. */
  datatype Request = Request(
    inputDir: string,
    oldExt: string,
    newExt: string,
    outputDir: string,
    deleteOriginals: bool)

  /** The paths on which opening for reading, opening for writing, or removing raises. */
  datatype Faults = Faults(unreadable: set<Path>, unwritable: set<Path>, undeletable: set<Path>)

  /** What the file system and the JSON parser do; `parse` is None for text that is not a notebook. */
  datatype Env = Env(faults: Faults, parse: string -> Option<Notebook>)

  /** Why a file was logged as an error. */
  datatype Failure = ReadFailed | NotANotebook | WriteFailed | RemoveFailed

  /** One per processed file: SUCCESS and SKIPPED go to the main log, ERROR to the error log. */
  datatype Record =
    | Success(source: string, dest: string)
    | Skipped(source: string, dest: string)
    | Error(source: string, cause: Failure)

  /** A log line: the run marker written when a run starts, or a record. */
  datatype Entry = RunMarker(stamp: string) | Logged(record: Record)

  /** Every file except the two logs, and the two logs. */
  datatype State = State(files: map<Path, string>, log: seq<Entry>, errorLog: seq<Entry>)

  /** The files after processing one name, and the record for it. */
  datatype FileOutcome = FileOutcome(files: map<Path, string>, record: Record)

  function SourcePath(req: Request, name: string): Path {
    Path(req.inputDir, name)
  }

  function DestPath(req: Request, name: string): Path {
    Path(req.outputDir, DestName(name, req.oldExt, req.newExt))
  }

  function SourcePaths(req: Request, names: seq<string>): set<Path> {
    set n | n in names :: SourcePath(req, n)
  }

  function DestPaths(req: Request, names: seq<string>): set<Path> {
    set n | n in names :: DestPath(req, n)
  }

  /** Unfolds the path sets of a non-empty list of names. */
  lemma PathsCons(req: Request, names: seq<string>)
    requires names != []
    ensures DestPaths(req, names) == {DestPath(req, names[0])} + DestPaths(req, names[1..])
    ensures SourcePaths(req, names) == {SourcePath(req, names[0])} + SourcePaths(req, names[1..])
  {
    assert names == [names[0]] + names[1..];
  }

  /**
   `os.path.exists`: a file, one of the two logs the run holds open in the
   output folder, the output folder itself (`os.path.join(out, "")` and
   `os.path.join(out, ".")`, which the run creates before anything else), or
   its parent `os.path.join(out, "..")`.
   */
  predicate Exists(req: Request, files: map<Path, string>, p: Path) {
    || p in files
    || p == Path(req.outputDir, "")
    || p == Path(req.outputDir, ".")
    || p == Path(req.outputDir, "..")
    || p == Path(req.outputDir, LogName)
    || p == Path(req.outputDir, ErrorLogName)
  }

  predicate IsNotebookPair(req: Request) {
    req.oldExt == NotebookExt && req.newExt == ScriptExt
  }

  /** A run in which no removed source can later be re-created by a conversion. */
  predicate Separated(req: Request) {
    !req.deleteOriginals || req.inputDir != req.outputDir
  }

  predicate Readable(env: Env, files: map<Path, string>, p: Path) {
    p in files && p !in env.faults.unreadable
  }

  /** Opening a file in text mode and reading it all. */
  function ReadText(faults: Faults, files: map<Path, string>, p: Path): Result<string, Failure> {
    if p in files && p !in faults.unreadable then Ok(Universal(files[p])) else Err(ReadFailed)
  }

  /** Opening a file for writing (creating or truncating it) and writing `text`. */
  function WriteText(faults: Faults, files: map<Path, string>, p: Path, text: string): Result<map<Path, string>, Failure> {
    if p in faults.unwritable then Err(WriteFailed) else Ok(files[p := text])
  }

  /** `os.remove`. */
  function RemoveFile(faults: Faults, files: map<Path, string>, p: Path): Result<map<Path, string>, Failure> {
    if p in files && p !in faults.undeletable then Ok(files - {p}) else Err(RemoveFailed)
  }

  /** The text a conversion writes: the extracted script for the notebook pair, the text read otherwise. */
  function Converted(req: Request, env: Env, files: map<Path, string>, name: string): Result<string, Failure> {
    match ReadText(env.faults, files, SourcePath(req, name))
    case Err(f) => Err(f)
    case Ok(text) =>
      if IsNotebookPair(req) then
        match env.parse(text)
        case None => Err(NotANotebook)
        case Some(nb) => Ok(Script(nb))
      else Ok(text)
  }

  /**
   One iteration of the loop: skip when the destination exists; otherwise
   convert, write, optionally remove the source, and report the first failure.
   Its contract is stated by `ProcessDecision` and `ProcessFiles`.
   */
  function Process(req: Request, env: Env, files: map<Path, string>, name: string): (r: FileOutcome)
    ensures r.record.source == name
  {
    var dest := DestName(name, req.oldExt, req.newExt);
    var src, dst := SourcePath(req, name), DestPath(req, name);
    if Exists(req, files, dst) then
      FileOutcome(files, Skipped(name, dest))
    else
      match Converted(req, env, files, name)
      case Err(f) => FileOutcome(files, Error(name, f))
      case Ok(text) =>
        match WriteText(env.faults, files, dst, text)
        case Err(f) => FileOutcome(files, Error(name, f))
        case Ok(written) =>
          if !req.deleteOriginals then
            FileOutcome(written, Success(name, dest))
          else
            match RemoveFile(env.faults, written, src)
            case Err(f) => FileOutcome(written, Error(name, f))
            case Ok(removed) => FileOutcome(removed, Success(name, dest))
  }

  /** Which record a file gets, and what a successful conversion writes. */
  lemma ProcessDecision(req: Request, env: Env, files: map<Path, string>, name: string)
    ensures var r := Process(req, env, files, name);
            var src, dst := SourcePath(req, name), DestPath(req, name);
            // Skipped exactly when the destination exists, and then nothing changes.
            && (r.record.Skipped? <==> Exists(req, files, dst))
            && (r.record.Skipped? ==> r.files == files)
            && (!r.record.Error? ==> r.record.dest == DestName(name, req.oldExt, req.newExt))
            // What a conversion writes, whether or not the removal after it fails.
            && (Wrote(r.record) ==>
                  && Readable(env, files, src)
                  && dst in r.files
                  && (if IsNotebookPair(req)
                      then env.parse(Universal(files[src])).Some?
                           && r.files[dst] == Script(env.parse(Universal(files[src])).value)
                      else r.files[dst] == Universal(files[src])))
            // A conversion succeeds only when neither the write nor the removal meets a fault.
            && (r.record.Success? ==>
                  dst !in env.faults.unwritable && (req.deleteOriginals ==> src !in env.faults.undeletable))
            // Why a file fails.
            && (r.record.Error? ==>
                  match r.record.cause
                  case ReadFailed => !Readable(env, files, src)
                  case NotANotebook =>
                    && IsNotebookPair(req)
                    && Readable(env, files, src)
                    && env.parse(Universal(files[src])).None?
                  case WriteFailed =>
                    && Readable(env, files, src)
                    && (IsNotebookPair(req) ==> env.parse(Universal(files[src])).Some?)
                    && dst in env.faults.unwritable
                  case RemoveFailed =>
                    && req.deleteOriginals
                    && dst !in env.faults.unwritable
                    && src in env.faults.undeletable)
            && (!Exists(req, files, dst) && !Readable(env, files, src) ==> r.record == Error(name, ReadFailed))
  {
  }

  /**
   Only the destination is ever written, and only when it did not exist; only
   the source is ever removed, exactly when removal is requested and the
   conversion succeeded.
   */
  lemma ProcessFiles(req: Request, env: Env, files: map<Path, string>, name: string)
    ensures var r := Process(req, env, files, name);
            var src, dst := SourcePath(req, name), DestPath(req, name);
            && (forall p :: p in files && p in r.files ==> r.files[p] == files[p])
            && (forall p :: p in r.files && p !in files ==> p == dst)
            && (r.record.Error? ==> (dst in r.files - files.Keys <==> r.record.cause == RemoveFailed))
            && (forall p :: p in files && p !in r.files ==> p == src)
            && ((src in files && src !in r.files) <==> (req.deleteOriginals && r.record.Success?))
  {
  }

  /**
   The converse of the failure conditions: a file whose destination is
   missing, whose source can be read (and parsed, for the notebook pair),
   written and, when asked, removed, is converted.
   */
  lemma ProcessSucceeds(req: Request, env: Env, files: map<Path, string>, name: string)
    requires !Exists(req, files, DestPath(req, name))
    requires Readable(env, files, SourcePath(req, name))
    requires IsNotebookPair(req) ==> env.parse(Universal(files[SourcePath(req, name)])).Some?
    requires DestPath(req, name) !in env.faults.unwritable
    requires req.deleteOriginals ==> SourcePath(req, name) !in env.faults.undeletable
    ensures Process(req, env, files, name).record == Success(name, DestName(name, req.oldExt, req.newExt))
  {
    ProcessDecision(req, env, files, name);
  }

  /** A record of a file whose destination was written: SUCCESS, or an ERROR raised by the removal after the write. */
  predicate Wrote(rec: Record) {
    rec.Success? || rec == Error(rec.source, RemoveFailed)
  }

  /** A record after which the destination is in place: it was written, or it existed already. */
  predicate LeavesDestination(rec: Record) {
    rec.Skipped? || Wrote(rec)
  }

  /** Processes one name and appends its record to the log it belongs in. */
  function Step(req: Request, env: Env, st: State, name: string): (State, Record) {
    var o := Process(req, env, st.files, name);
    if o.record.Error? then (State(o.files, st.log, st.errorLog + [Logged(o.record)]), o.record)
    else (State(o.files, st.log + [Logged(o.record)], st.errorLog), o.record)
  }

  /** A file whose destination exists changes nothing but the main log, which gets one SKIPPED record. */
  lemma StepSkipped(req: Request, env: Env, st: State, name: string)
    requires Exists(req, st.files, DestPath(req, name))
    ensures var (next, record) := Step(req, env, st, name);
            var skipped := Skipped(name, DestName(name, req.oldExt, req.newExt));
            && record == skipped
            && next.files == st.files
            && next.log == st.log + [Logged(skipped)]
            && next.errorLog == st.errorLog
  {
    ProcessDecision(req, env, st.files, name);
  }

  /** The main-log entries for a trace: its SUCCESS and SKIPPED records, in order. */
  function MainEntries(trace: seq<Record>): seq<Entry> {
    if trace == [] then []
    else (if trace[0].Error? then [] else [Logged(trace[0])]) + MainEntries(trace[1..])
  }

  /** The error-log entries for a trace: its ERROR records, in order. */
  function ErrorEntries(trace: seq<Record>): seq<Entry> {
    if trace == [] then []
    else (if trace[0].Error? then [Logged(trace[0])] else []) + ErrorEntries(trace[1..])
  }

  /** A step logs exactly one record, for the name it processed, in the log that record belongs in. */
  lemma StepLogs(req: Request, env: Env, st: State, name: string)
    ensures var (next, record) := Step(req, env, st, name);
            && record.source == name
            && next.log == st.log + MainEntries([record])
            && next.errorLog == st.errorLog + ErrorEntries([record])
  {
    var record := Step(req, env, st, name).1;
    assert [record][1..] == [];
  }

  /** `Step` with the request and environment fixed. */
  function StepOf(req: Request, env: Env): (State, string) -> (State, Record) {
    (st, name) => Step(req, env, st, name)
  }

  /** The loop over the matched names, in listing order; each step sees the files the earlier ones left. */
  function RunBatch(req: Request, env: Env, st: State, names: seq<string>): Folded<State, Record> {
    Fold(StepOf(req, env), st, names)
  }

  /** Exactly one record per name, in listing order. */
  lemma {:induction false} BatchTrace(req: Request, env: Env, st: State, names: seq<string>)
    ensures var r := RunBatch(req, env, st, names);
            && |r.trace| == |names|
            && forall i :: 0 <= i < |names| ==> r.trace[i].source == names[i]
    decreases |names|
  {
    if names != [] {
      var (next, record) := Step(req, env, st, names[0]);
      StepLogs(req, env, st, names[0]);
      BatchTrace(req, env, next, names[1..]);
      var rest := RunBatch(req, env, next, names[1..]);
      var r := RunBatch(req, env, st, names);
      assert r.trace == [record] + rest.trace;
      forall i | 0 <= i < |names|
        ensures r.trace[i].source == names[i]
      {
        if i > 0 {
          assert r.trace[i] == rest.trace[i - 1];
        }
      }
    }
  }

  /** Each name's record lands in the log it belongs in, in order, after what the logs already held. */
  lemma {:induction false} BatchLogs(req: Request, env: Env, st: State, names: seq<string>)
    ensures var r := RunBatch(req, env, st, names);
            && r.state.log == st.log + MainEntries(r.trace)
            && r.state.errorLog == st.errorLog + ErrorEntries(r.trace)
    decreases |names|
  {
    if names != [] {
      var (next, record) := Step(req, env, st, names[0]);
      StepLogs(req, env, st, names[0]);
      BatchLogs(req, env, next, names[1..]);
      var rest := RunBatch(req, env, next, names[1..]);
      var r := RunBatch(req, env, st, names);
      assert r.trace == [record] + rest.trace;
      assert r.trace[1..] == rest.trace;
      assert MainEntries(r.trace) == MainEntries([record]) + MainEntries(rest.trace);
      assert ErrorEntries(r.trace) == ErrorEntries([record]) + ErrorEntries(rest.trace);
    }
  }

  /**
   New files are destinations; removed files are sources, and only when
   removal is requested; no file that stays changes its contents.
   */
  lemma {:induction false} BatchFiles(req: Request, env: Env, st: State, names: seq<string>)
    ensures var r := RunBatch(req, env, st, names);
            && (forall p :: p in r.state.files && p !in st.files ==> p in DestPaths(req, names))
            && (forall p :: p in st.files && p !in r.state.files ==>
                  req.deleteOriginals && p in SourcePaths(req, names))
            && (!req.deleteOriginals ==>
                  forall p :: p in st.files ==> p in r.state.files && r.state.files[p] == st.files[p])
            && (Separated(req) ==>
                  forall p :: p in st.files && p in r.state.files ==> r.state.files[p] == st.files[p])
    decreases |names|
  {
    if names != [] {
      BatchFiles(req, env, Step(req, env, st, names[0]).0, names[1..]);
      ProcessFiles(req, env, st.files, names[0]);
      PathsCons(req, names);
    }
  }

  datatype Outcome = NoMatches | Cancelled | Completed

  datatype RunResult = RunResult(outcome: Outcome, state: State, trace: seq<Record>)

  /**
   `convert_files`: select the names of `listing` (the directory listing),
   stop when none matches or the operator's `answer` is not "y", otherwise
   write the run markers and process every matched name.
   */
  function Run(req: Request, env: Env, listing: seq<string>, answer: string,
               stamp: string, errorStamp: string, st: State): (r: RunResult)
    ensures r.outcome == NoMatches <==> Select(listing, req.oldExt) == []
    ensures r.outcome == Cancelled <==> Select(listing, req.oldExt) != [] && !Confirmed(answer)
    // Stopping early writes nothing at all.
    ensures r.outcome != Completed ==> r.state == st && r.trace == []
    ensures r.outcome == Completed ==>
              var matched := Select(listing, req.oldExt);
              && |r.trace| == |matched|
              && (forall i :: 0 <= i < |matched| ==> r.trace[i].source == matched[i])
              && r.state.log == st.log + [RunMarker(stamp)] + MainEntries(r.trace)
              && r.state.errorLog == st.errorLog + [RunMarker(errorStamp)] + ErrorEntries(r.trace)
  {
    var matched := Select(listing, req.oldExt);
    if matched == [] then RunResult(NoMatches, st, [])
    else if !Confirmed(answer) then RunResult(Cancelled, st, [])
    else
      var started := State(st.files, st.log + [RunMarker(stamp)], st.errorLog + [RunMarker(errorStamp)]);
      var b := RunBatch(req, env, started, matched);
      BatchTrace(req, env, started, matched);
      BatchLogs(req, env, started, matched);
      RunResult(Completed, b.state, b.trace)
  }
}

=== FILE: conversion_props.dfy ===
/**
 Properties of whole batches: how a batch decomposes into its steps, that
 later files see what earlier ones wrote, that a second run converts
 nothing, and when a source file disappears.
 */
module ConversionProps {
  import opened Wrappers
  import opened Text
  import opened Newlines
  import opened Selection
  import opened Conversion
  import opened Folds

  /** Running a batch is running its first k names, then the rest from the state they leave. */
  lemma BatchSplit(req: Request, env: Env, st: State, names: seq<string>, k: nat)
    requires k <= |names|
    ensures var a := RunBatch(req, env, st, names[..k]);
            var b := RunBatch(req, env, a.state, names[k..]);
            RunBatch(req, env, st, names) == Folded(b.state, a.trace + b.trace)
  {
    FoldSplit(StepOf(req, env), st, names, k);
  }

  /** The record of the k-th name is what one step gives on the state the first k names left. */
  lemma BatchAt(req: Request, env: Env, st: State, names: seq<string>, k: nat)
    requires k < |names|
    ensures var before := RunBatch(req, env, st, names[..k]).state;
            && RunBatch(req, env, st, names).trace[k] == Step(req, env, before, names[k]).1
            && RunBatch(req, env, st, names[..k + 1]).state == Step(req, env, before, names[k]).0
  {
    FoldAt(StepOf(req, env), st, names, k);
  }

  /** Under `Separated`, a path in the output folder that exists before a batch exists after it. */
  lemma ExistsPersists(req: Request, env: Env, st: State, names: seq<string>, p: Path)
    requires Separated(req) && p.dir == req.outputDir
    requires Exists(req, st.files, p)
    ensures Exists(req, RunBatch(req, env, st, names).state.files, p)
  {
    BatchFiles(req, env, st, names);
  }

  /**
   After a batch, every name whose record leaves its destination (SKIPPED,
   SUCCESS, or an ERROR from the removal after the write) has it in place.
   */
  lemma DestinationsEstablished(req: Request, env: Env, st: State, names: seq<string>)
    requires Separated(req)
    ensures var r := RunBatch(req, env, st, names);
            forall k :: 0 <= k < |names| && LeavesDestination(r.trace[k]) ==>
              Exists(req, r.state.files, DestPath(req, names[k]))
  {
    var r := RunBatch(req, env, st, names);
    forall k | 0 <= k < |names| && LeavesDestination(r.trace[k])
      ensures Exists(req, r.state.files, DestPath(req, names[k]))
    {
      var before := RunBatch(req, env, st, names[..k]).state;
      BatchAt(req, env, st, names, k);
      ProcessDecision(req, env, before.files, names[k]);
      ProcessFiles(req, env, before.files, names[k]);
      var after := RunBatch(req, env, st, names[..k + 1]).state;
      assert Exists(req, after.files, DestPath(req, names[k]));
      BatchSplit(req, env, st, names, k + 1);
      ExistsPersists(req, env, after, names[k + 1..], DestPath(req, names[k]));
    }
  }

  /**
   A later name with the same destination as an earlier one whose record
   leaves the destination is skipped: the existence check sees what earlier
   steps wrote.
   */
  lemma DuplicateDestinationSkipped(req: Request, env: Env, st: State, names: seq<string>, i: nat, j: nat)
    requires Separated(req) && i < j < |names|
    requires DestPath(req, names[i]) == DestPath(req, names[j])
    ensures var t := RunBatch(req, env, st, names).trace;
            LeavesDestination(t[i]) ==> t[j].Skipped?
  {
    var t := RunBatch(req, env, st, names).trace;
    BatchSplit(req, env, st, names, j);
    var a := RunBatch(req, env, st, names[..j]);
    assert t[i] == a.trace[i];
    assert names[..j][i] == names[i];
    DestinationsEstablished(req, env, st, names[..j]);
    BatchAt(req, env, st, names, j);
  }

  /** When every destination already exists, a batch only logs SKIPPED records. */
  lemma {:induction false} SkipsWhenAllExist(req: Request, env: Env, st: State, names: seq<string>)
    requires forall n :: n in names ==> Exists(req, st.files, DestPath(req, n))
    ensures var r := RunBatch(req, env, st, names);
            && r.state.files == st.files
            && r.state.errorLog == st.errorLog
            && forall i :: 0 <= i < |names| ==>
                 r.trace[i] == Skipped(names[i], DestName(names[i], req.oldExt, req.newExt))
    decreases |names|
  {
    if names != [] {
      StepSkipped(req, env, st, names[0]);
      var next := Step(req, env, st, names[0]).0;
      SkipsWhenAllExist(req, env, next, names[1..]);
      var rest := RunBatch(req, env, next, names[1..]);
      var r := RunBatch(req, env, st, names);
      forall i | 0 <= i < |names|
        ensures r.trace[i] == Skipped(names[i], DestName(names[i], req.oldExt, req.newExt))
      {
        if i > 0 {
          assert r.trace[i] == rest.trace[i - 1];
          assert names[1..][i - 1] == names[i];
        }
      }
    }
  }

  /**
   Running the same batch again after a run whose only errors, if any, came
   from removals converts nothing: every name is skipped and no file changes,
   whatever faults the second run meets.
   */
  lemma RerunSkipsEverything(req: Request, env: Env, env2: Env, st: State, names: seq<string>)
    requires Separated(req)
    requires forall k :: 0 <= k < |names| ==> LeavesDestination(RunBatch(req, env, st, names).trace[k])
    ensures var first := RunBatch(req, env, st, names).state;
            var second := RunBatch(req, env2, first, names);
            && second.state.files == first.files
            && forall k :: 0 <= k < |names| ==> second.trace[k].Skipped?
  {
    var first := RunBatch(req, env, st, names).state;
    DestinationsEstablished(req, env, st, names);
    forall n | n in names
      ensures Exists(req, first.files, DestPath(req, n))
    {
      var k :| 0 <= k < |names| && names[k] == n;
    }
    SkipsWhenAllExist(req, env2, first, names);
  }

  /**
   With distinct input and output folders and a listing without repeats, a
   name's source file is gone after the batch exactly when it was there,
   removal was requested, and its record is SUCCESS.
   */
  lemma SourceRemovedIffConverted(req: Request, env: Env, st: State, names: seq<string>, k: nat)
    requires req.inputDir != req.outputDir && Distinct(names) && k < |names|
    ensures var r := RunBatch(req, env, st, names);
            var src := SourcePath(req, names[k]);
            src in r.state.files <==> src in st.files && !(req.deleteOriginals && r.trace[k].Success?)
  {
    var src := SourcePath(req, names[k]);
    var before := RunBatch(req, env, st, names[..k]).state;
    assert names[k] !in names[..k];
    assert src !in SourcePaths(req, names[..k]);
    BatchFiles(req, env, st, names[..k]);
    assert src in before.files <==> src in st.files;
    BatchAt(req, env, st, names, k);
    ProcessFiles(req, env, before.files, names[k]);
    var after := RunBatch(req, env, st, names[..k + 1]).state;
    BatchSplit(req, env, st, names, k + 1);
    assert names[k] !in names[k + 1..] by {
      var later := names[k + 1..];
      forall m | 0 <= m < |later|
        ensures later[m] != names[k]
      {
        assert later[m] == names[k + 1 + m];
      }
    }
    assert src !in SourcePaths(req, names[k + 1..]);
    BatchFiles(req, env, after, names[k + 1..]);
  }

  /** The answer "y" confirms. */
  lemma ConfirmedY()
    ensures Confirmed("y")
  {
    assert TrimStart("y") == "y" && TrimEnd("y") == "y";
    assert Lower("y") == "y";
  }

  /**
   With both extensions empty every destination is `os.path.join(out, "")`,
   the output folder itself, which exists: every file is skipped.
   */
  lemma EmptyExtensionsSkipAll(req: Request, env: Env, files: map<Path, string>, name: string)
    requires req.oldExt == "" && req.newExt == ""
    ensures Process(req, env, files, name).record == Skipped(name, "")
  {
    assert DestName(name, "", "") == "";
    ProcessDecision(req, env, files, name);
  }

  /** The request of the example below: one folder "d", removal requested, ".txt" to ".txt.txt". */
  const SameFolder := Request("d", ".txt", ".txt.txt", "d", true)

  /** First step of the example below: "a.txt" is skipped because "a.txt.txt" exists. */
  lemma SameFolderFirst(env: Env, files: map<Path, string>)
    requires Path("d", "a.txt.txt") in files
    ensures var o := Process(SameFolder, env, files, "a.txt");
            o.record == Skipped("a.txt", "a.txt.txt") && o.files == files
  {
    assert PyPrefix("a.txt", -4) == "a";
    assert DestPath(SameFolder, "a.txt") == Path("d", "a.txt.txt");
    ProcessDecision(SameFolder, env, files, "a.txt");
  }

  /** Second step: "a.txt.txt" is converted to "a.txt.txt.txt" and removed; "a.TXT" stays. */
  lemma SameFolderSecond(env: Env, files: map<Path, string>)
    requires env.faults == Faults({}, {}, {})
    requires Path("d", "a.txt.txt") in files && Path("d", "a.TXT") in files
    requires Path("d", "a.txt.txt.txt") !in files
    ensures var o := Process(SameFolder, env, files, "a.txt.txt");
            && o.record == Success("a.txt.txt", "a.txt.txt.txt")
            && Path("d", "a.txt.txt") !in o.files
            && Path("d", "a.TXT") in o.files
  {
    assert PyPrefix("a.txt.txt", -4) == "a.txt";
    assert DestPath(SameFolder, "a.txt.txt") == Path("d", "a.txt.txt.txt");
    ProcessSucceeds(SameFolder, env, files, "a.txt.txt");
    ProcessFiles(SameFolder, env, files, "a.txt.txt");
  }

  /** Third step: "a.TXT" is converted, its destination "a.txt.txt" being gone. */
  lemma SameFolderThird(env: Env, files: map<Path, string>)
    requires env.faults == Faults({}, {}, {})
    requires Path("d", "a.txt.txt") !in files && Path("d", "a.TXT") in files
    ensures Process(SameFolder, env, files, "a.TXT").record == Success("a.TXT", "a.txt.txt")
  {
    assert PyPrefix("a.TXT", -4) == "a";
    assert DestPath(SameFolder, "a.TXT") == Path("d", "a.txt.txt");
    ProcessSucceeds(SameFolder, env, files, "a.TXT");
  }

  /**
   Without `Separated`, a later file with the same destination as an earlier
   skipped one can still be converted: with input and output folder both "d"
   and removal requested, "a.txt" is skipped because "a.txt.txt" exists,
   "a.txt.txt" is converted and removed, and then "a.TXT", whose destination
   is "a.txt.txt" again, is converted.
   */
  lemma SameFolderDuplicateConverted(env: Env, st: State)
    requires env.faults == Faults({}, {}, {})
    requires st.files == map[Path("d", "a.txt") := "1", Path("d", "a.txt.txt") := "2", Path("d", "a.TXT") := "3"]
    ensures var names := ["a.txt", "a.txt.txt", "a.TXT"];
            var t := RunBatch(SameFolder, env, st, names).trace;
            && !Separated(SameFolder)
            && DestPath(SameFolder, names[0]) == DestPath(SameFolder, names[2])
            && t[0] == Skipped("a.txt", "a.txt.txt")
            && t[1] == Success("a.txt.txt", "a.txt.txt.txt")
            && t[2] == Success("a.TXT", "a.txt.txt")
  {
    var names := ["a.txt", "a.txt.txt", "a.TXT"];
    assert PyPrefix("a.txt", -4) == "a" && PyPrefix("a.TXT", -4) == "a";
    assert names[..0] == [];
    BatchAt(SameFolder, env, st, names, 0);
    SameFolderFirst(env, st.files);
    var s1 := RunBatch(SameFolder, env, st, names[..1]).state;
    BatchAt(SameFolder, env, st, names, 1);
    SameFolderSecond(env, s1.files);
    var s2 := RunBatch(SameFolder, env, st, names[..2]).state;
    BatchAt(SameFolder, env, st, names, 2);
    SameFolderThird(env, s2.files);
  }

  /** A listing of one ".txt" name selects it. */
  lemma SelectOne()
    ensures Select(["a.txt"], ".txt") == ["a.txt"]
  {
    assert Matches("a.txt", ".txt") by {
      assert Lower("a.txt") == "a.txt" && Lower(".txt") == ".txt";
    }
    assert ["a.txt"][1..] == [];
  }

  /** The one step of the copy example below. */
  lemma CopyExampleStep(req: Request, env: Env, files: map<Path, string>)
    requires req == Request("in", ".txt", ".md", "out", false)
    requires env.faults == Faults({}, {}, {})
    requires files == map[Path("in", "a.txt") := "hello\n"]
    ensures Process(req, env, files, "a.txt")
         == FileOutcome(files[Path("out", "a.md") := "hello\n"], Success("a.txt", "a.md"))
  {
    assert DestName("a.txt", ".txt", ".md") == "a.md" by {
      assert PyPrefix("a.txt", -4) == "a";
    }
    UniversalKeepsPlainText("hello\n");
    assert !Exists(req, files, Path("out", "a.md"));
    assert ReadText(env.faults, files, Path("in", "a.txt")) == Ok("hello\n");
  }

  /** Converting "a.txt" holding "hello\n" from .txt to .md writes "a.md" with the same text and logs SUCCESS. */
  lemma CopyExample(env: Env)
    requires env.faults == Faults({}, {}, {})
    ensures var req := Request("in", ".txt", ".md", "out", false);
            var st := State(map[Path("in", "a.txt") := "hello\n"], [], []);
            var r := Run(req, env, ["a.txt"], "y", "t0", "t1", st);
            && r.outcome == Completed
            && r.trace == [Success("a.txt", "a.md")]
            && r.state.files == map[Path("in", "a.txt") := "hello\n", Path("out", "a.md") := "hello\n"]
  {
    var req := Request("in", ".txt", ".md", "out", false);
    var st := State(map[Path("in", "a.txt") := "hello\n"], [], []);
    var started := State(st.files, st.log + [RunMarker("t0")], st.errorLog + [RunMarker("t1")]);
    SelectOne();
    ConfirmedY();
    var b := RunBatch(req, env, started, ["a.txt"]);
    assert Run(req, env, ["a.txt"], "y", "t0", "t1", st) == RunResult(Completed, b.state, b.trace);
    CopyExampleStep(req, env, started.files);
    FoldAt(StepOf(req, env), started, ["a.txt"], 0);
    assert ["a.txt"][..1] == ["a.txt"];
  }

}

=== FILE: folds.dfy ===
/** Left folds of a stateful step over a sequence, keeping what each step reports. */
module Folds {

  /** The final state and the report of each step, in order. */
  datatype Folded<S, R> = Folded(state: S, trace: seq<R>)

  /** Applies `step` to each element in turn, threading the state through. */
  function Fold<S, X, R>(step: (S, X) -> (S, R), s: S, xs: seq<X>): (r: Folded<S, R>)
    ensures |r.trace| == |xs|
    decreases |xs|
  {
    if xs == [] then Folded(s, [])
    else
      var next := step(s, xs[0]);
      var rest := Fold(step, next.0, xs[1..]);
      Folded(rest.state, [next.1] + rest.trace)
  }

  /** Folding over a sequence is folding over its first k elements, then over the rest. */
  lemma {:induction false} FoldSplit<S, X, R>(step: (S, X) -> (S, R), s: S, xs: seq<X>, k: nat)
    requires k <= |xs|
    ensures var a := Fold(step, s, xs[..k]);
            var b := Fold(step, a.state, xs[k..]);
            Fold(step, s, xs) == Folded(b.state, a.trace + b.trace)
    decreases k
  {
    if k == 0 {
      assert xs[..0] == [];
      assert xs[0..] == xs;
    } else {
      var next := step(s, xs[0]);
      var head, tail := xs[..k], xs[1..];
      assert head[0] == xs[0] && head[1..] == tail[..k - 1];
      assert tail[k - 1..] == xs[k..];
      FoldSplit(step, next.0, tail, k - 1);
      var a' := Fold(step, next.0, tail[..k - 1]);
      var b := Fold(step, a'.state, xs[k..]);
      assert Fold(step, s, head) == Folded(a'.state, [next.1] + a'.trace);
      assert [next.1] + (a'.trace + b.trace) == ([next.1] + a'.trace) + b.trace;
    }
  }

  /** The k-th report is what the step gives on the state the first k elements left. */
  lemma FoldAt<S, X, R>(step: (S, X) -> (S, R), s: S, xs: seq<X>, k: nat)
    requires k < |xs|
    ensures var before := Fold(step, s, xs[..k]).state;
            && Fold(step, s, xs).trace[k] == step(before, xs[k]).1
            && Fold(step, s, xs[..k + 1]).state == step(before, xs[k]).0
  {
    FoldSplit(step, s, xs, k);
    var a := Fold(step, s, xs[..k]);
    assert xs[k..][0] == xs[k];
    FoldSplit(step, s, xs[..k + 1], k);
    assert xs[..k + 1][..k] == xs[..k];
    assert xs[..k + 1][k..] == [xs[k]];
    assert [xs[k]][1..] == [];
  }
}

=== FILE: newlines.dfy ===
/**
 Universal-newline translation, which Python applies when a file opened in
 text mode is read: "\r\n" and a lone "\r" both become "\n". Writing in text
 mode on a POSIX system leaves "\n" alone, so reading then writing a file
 rewrites its line endings and nothing else.
 */
module Newlines {

  /** The text a text-mode `read()` returns for file contents `s`. */
  function Universal(s: string): (r: string)
    ensures '\r' !in r
    ensures |r| <= |s|
    decreases |s|
  {
    if s == [] then ""
    else if s[0] == '\r' then
      if |s| >= 2 && s[1] == '\n' then "\n" + Universal(s[2..]) else "\n" + Universal(s[1..])
    else [s[0]] + Universal(s[1..])
  }

  /** Text without carriage returns is read back exactly. */
  lemma {:induction false} UniversalKeepsPlainText(s: string)
    requires '\r' !in s
    ensures Universal(s) == s
    decreases |s|
  {
    if s != [] {
      assert '\r' !in s[1..];
      UniversalKeepsPlainText(s[1..]);
      assert s == [s[0]] + s[1..];
    }
  }

  /** Reading leaves the text unchanged exactly when it holds no carriage return. */
  lemma UniversalFixedIff(s: string)
    ensures Universal(s) == s <==> '\r' !in s
  {
    if '\r' !in s {
      UniversalKeepsPlainText(s);
    }
  }

  /** Translating twice is translating once. */
  lemma UniversalIdempotent(s: string)
    ensures Universal(Universal(s)) == Universal(s)
  {
    UniversalKeepsPlainText(Universal(s));
  }

  /** Each line ending of any kind becomes one "\n": "a\r\nb\rc\n" reads as "a\nb\nc\n". */
  lemma UniversalExample()
    ensures Universal("a\r\nb\rc\n") == "a\nb\nc\n"
  {
  }
}

=== FILE: notebooks.dfy ===
/**
 The notebook-to-script transform. A notebook is taken as already parsed
 from JSON: an optional list of cells, each with an optional `cell_type`
 and an optional list of source lines.
 */
module Notebooks {
  import opened Wrappers
  import opened Text

  datatype Cell = Cell(cellType: Option<string>, source: Option<seq<string>>)

  /** The top-level object; `cells` is None when the key is missing. */
  datatype Notebook = Notebook(cells: Option<seq<Cell>>)

  /** A cell whose `cell_type` is exactly "code". */
  predicate IsCode(c: Cell) {
    c.cellType == Some("code")
  }

  /** What one cell adds to the output: a code cell's lines (none when `source` is missing) then "\n". */
  function CellLines(c: Cell): seq<string> {
    if IsCode(c) then c.source.GetOr([]) + ["\n"] else []
  }

  /** Reference definition: the in-order concatenation of what each cell adds. */
  function CodeLines(cells: seq<Cell>): seq<string> {
    if cells == [] then [] else CellLines(cells[0]) + CodeLines(cells[1..])
  }

  /** The code cells, in notebook order. */
  function CodeCells(cells: seq<Cell>): (r: seq<Cell>)
    ensures |r| <= |cells|
    ensures forall c :: c in r <==> c in cells && IsCode(c)
  {
    if cells == [] then []
    else (if IsCode(cells[0]) then [cells[0]] else []) + CodeCells(cells[1..])
  }

  /** The lines of consecutive runs of cells are concatenated in order. */
  lemma {:induction false} CodeLinesAppend(a: seq<Cell>, b: seq<Cell>)
    ensures CodeLines(a + b) == CodeLines(a) + CodeLines(b)
    decreases |a|
  {
    if a == [] {
      assert a + b == b;
    } else {
      assert (a + b)[1..] == a[1..] + b;
      CodeLinesAppend(a[1..], b);
    }
  }

  /** Dropping every non-code cell leaves the output unchanged. */
  lemma {:induction false} OnlyCodeCellsCount(cells: seq<Cell>)
    ensures CodeLines(cells) == CodeLines(CodeCells(cells))
    decreases |cells|
  {
    if cells != [] {
      var c, tail := cells[0], cells[1..];
      var rest := CodeCells(tail);
      OnlyCodeCellsCount(tail);
      assert CodeLines(cells) == CellLines(c) + CodeLines(rest);
      if IsCode(c) {
        assert CodeCells(cells) == [c] + rest;
        assert ([c] + rest)[1..] == rest;
        assert CodeLines([c] + rest) == CellLines(c) + CodeLines(rest);
      } else {
        assert CodeCells(cells) == [] + rest == rest;
      }
    }
  }

  /** A notebook with no code cell yields no lines at all. */
  lemma NoCodeNoLines(cells: seq<Cell>)
    requires forall c :: c in cells ==> !IsCode(c)
    ensures CodeLines(cells) == []
  {
    OnlyCodeCellsCount(cells);
    assert CodeCells(cells) == [];
  }

  /** Each code cell contributes its lines and exactly one separator entry. */
  lemma {:induction false} CodeLinesLength(cells: seq<Cell>)
    ensures |CodeLines(cells)| == SourceCount(CodeCells(cells)) + |CodeCells(cells)|
    decreases |cells|
  {
    if cells != [] {
      var c, tail := cells[0], cells[1..];
      var rest := CodeCells(tail);
      CodeLinesLength(tail);
      assert CodeLines(cells) == CellLines(c) + CodeLines(tail);
      if IsCode(c) {
        assert CodeCells(cells) == [c] + rest;
        assert ([c] + rest)[1..] == rest;
        assert SourceCount([c] + rest) == |c.source.GetOr([])| + SourceCount(rest);
      } else {
        assert CodeCells(cells) == [] + rest == rest;
      }
    }
  }

  /** The total number of source lines of some cells. */
  function SourceCount(cells: seq<Cell>): nat {
    if cells == [] then 0 else |cells[0].source.GetOr([])| + SourceCount(cells[1..])
  }

  /**
   The extraction loop: start from an empty list, and for each code cell
   extend it with the cell's source lines and append "\n".
   */
  method ExtractCode(nb: Notebook) returns (lines: seq<string>)
    ensures lines == CodeLines(nb.cells.GetOr([]))
    ensures nb.cells.None? ==> lines == []
  {
    var cells := nb.cells.GetOr([]);
    lines := [];
    var i := 0;
    while i < |cells|
      invariant 0 <= i <= |cells|
      invariant lines == CodeLines(cells[..i])
    {
      var cell := cells[i];
      if cell.cellType == Some("code") {
        lines := lines + cell.source.GetOr([]);
        lines := lines + ["\n"];
      }
      CodeLinesAppend(cells[..i], [cell]);
      assert cells[..i + 1] == cells[..i] + [cell];
      i := i + 1;
    }
    assert cells[..i] == cells;
  }

  /** The script text written for a notebook: its extracted lines, joined. */
  function Script(nb: Notebook): string {
    Concat(CodeLines(nb.cells.GetOr([])))
  }

  /**
   A markdown cell then a code cell with lines "x = 1\n" and "y = 2\n": the
   markdown is dropped and the separator after the code cell leaves a blank
   line at the end of the script.
   */
  lemma ScriptExample()
    ensures var nb := Notebook(Some([
              Cell(Some("markdown"), Some(["# title"])),
              Cell(Some("code"), Some(["x = 1\n", "y = 2\n"]))]));
            Script(nb) == "x = 1\ny = 2\n\n"
  {
    var md := Cell(Some("markdown"), Some(["# title"]));
    var code := Cell(Some("code"), Some(["x = 1\n", "y = 2\n"]));
    assert [md, code][1..] == [code];
    assert CodeLines([code]) == ["x = 1\n", "y = 2\n", "\n"];
    assert CodeLines([md, code]) == ["x = 1\n", "y = 2\n", "\n"];
    assert Concat(["x = 1\n", "y = 2\n", "\n"]) == "x = 1\ny = 2\n\n" by {
      assert ["x = 1\n", "y = 2\n", "\n"][1..] == ["y = 2\n", "\n"];
      assert ["y = 2\n", "\n"][1..] == ["\n"];
    }
  }

  /** A notebook without a `cells` key yields an empty script, and a code cell without `source` yields "\n". */
  lemma MissingKeys()
    ensures Script(Notebook(None)) == ""
    ensures Script(Notebook(Some([Cell(Some("code"), None)]))) == "\n"
  {
    var c := Cell(Some("code"), None);
    assert [c][1..] == [];
    assert CodeLines([c]) == ["\n"];
    assert ["\n"][1..] == [];
  }
}

=== FILE: selection.dfy ===
/**
 Which files a run converts, what each one is renamed to, and whether the
 operator's answer lets the run go ahead.
 */
module Selection {
  import opened Text

  /** A listed name is converted when its lower-cased form ends with the lower-cased old extension. */
  predicate Matches(name: string, ext: string) {
    EndsWith(Lower(name), Lower(ext))
  }

  /** The matched names, in listing order. */
  function Select(listing: seq<string>, ext: string): (r: seq<string>)
    ensures |r| <= |listing|
    ensures forall x :: x in r <==> x in listing && Matches(x, ext)
  {
    if listing == [] then []
    else (if Matches(listing[0], ext) then [listing[0]] else []) + Select(listing[1..], ext)
  }

  /** Selection keeps listing order: selecting from two listings in turn is selecting from their concatenation. */
  lemma {:induction false} SelectAppend(a: seq<string>, b: seq<string>, ext: string)
    ensures Select(a + b, ext) == Select(a, ext) + Select(b, ext)
    decreases |a|
  {
    if a == [] {
      assert a + b == b;
    } else {
      assert (a + b)[1..] == a[1..] + b;
      SelectAppend(a[1..], b, ext);
    }
  }

  /** No name occurs twice (as in a directory listing). */
  predicate Distinct(names: seq<string>) {
    forall i, j :: 0 <= i < j < |names| ==> names[i] != names[j]
  }

  /** A listing without repeated names selects no name twice. */
  lemma {:induction false} SelectDistinct(listing: seq<string>, ext: string)
    requires Distinct(listing)
    ensures Distinct(Select(listing, ext))
    decreases |listing|
  {
    if listing != [] {
      assert Distinct(listing[1..]) by {
        forall i, j | 0 <= i < j < |listing| - 1
          ensures listing[1..][i] != listing[1..][j]
        {
          assert listing[i + 1] != listing[j + 1];
        }
      }
      SelectDistinct(listing[1..], ext);
      var rest := Select(listing[1..], ext);
      assert listing[0] !in listing[1..];
      assert listing[0] !in rest;
      var r := Select(listing, ext);
      forall i, j | 0 <= i < j < |r|
        ensures r[i] != r[j]
      {
        if Matches(listing[0], ext) {
          assert r == [listing[0]] + rest;
          assert r[j] == rest[j - 1] && rest[j - 1] in rest;
          if i > 0 {
            assert r[i] == rest[i - 1];
            assert Distinct(rest);
            assert rest[i - 1] != rest[j - 1];
          }
        } else {
          assert r == rest;
        }
      }
    }
  }

  /** Matching ignores case on both sides: it compares the final |ext| characters of the name with ext, up to case. */
  lemma MatchesIff(name: string, ext: string)
    ensures Matches(name, ext) <==> |ext| <= |name| && Lower(name[|name| - |ext|..]) == Lower(ext)
  {
    if |ext| <= |name| {
      LowerSlice(name, |name| - |ext|, |name|);
    }
  }

  /** The destination name: `filename[:-len(old_ext)] + new_ext`. */
  function DestName(name: string, oldExt: string, newExt: string): string {
    PyPrefix(name, -|oldExt|) + newExt
  }

  /**
   For a matched name and a non-empty old extension, the destination keeps the
   stem (everything before the last |oldExt| characters) unchanged and puts
   the new extension after it.
   */
  lemma DestNameOfMatched(name: string, oldExt: string, newExt: string)
    requires Matches(name, oldExt) && |oldExt| > 0
    ensures var d := DestName(name, oldExt, newExt);
            && d == name[..|name| - |oldExt|] + newExt
            && |d| == |name| - |oldExt| + |newExt|
            && name[..|name| - |oldExt|] <= d
            && EndsWith(d, newExt)
  {
    var d := DestName(name, oldExt, newExt);
    assert d[|d| - |newExt|..] == newExt;
  }

  /**
   With an empty old extension every name matches, and since `filename[:-0]`
   is the empty string, every name is renamed to the bare new extension.
   */
  lemma {:induction false} EmptyOldExtension(listing: seq<string>, newExt: string)
    ensures Select(listing, "") == listing
    ensures forall i :: 0 <= i < |listing| ==> DestName(listing[i], "", newExt) == newExt
    decreases |listing|
  {
    if listing != [] {
      assert Matches(listing[0], "");
      EmptyOldExtension(listing[1..], newExt);
      assert listing == [listing[0]] + listing[1..];
    }
  }

  /**
   Converting back undoes a conversion: renaming the destination with the
   extensions swapped (the old one in the case the name had) restores the name.
   */
  lemma DestNameRoundTrip(name: string, oldExt: string, newExt: string)
    requires Matches(name, oldExt) && |oldExt| > 0 && |newExt| > 0
    ensures var suffix := name[|name| - |oldExt|..];
            && Matches(DestName(name, oldExt, newExt), newExt)
            && DestName(DestName(name, oldExt, newExt), newExt, suffix) == name
  {
    var stem := name[..|name| - |oldExt|];
    var d := DestName(name, oldExt, newExt);
    DestNameOfMatched(name, oldExt, newExt);
    assert d[..|d| - |newExt|] == stem;
    assert Lower(d)[|d| - |newExt|..] == Lower(newExt) by {
      LowerSlice(d, |d| - |newExt|, |d|);
    }
    assert name == stem + name[|name| - |oldExt|..];
  }

  /**
   Two matched names that get the same destination share their stem and so
   differ at most in the letter case of their extension ("a.TXT" and "a.txt").
   */
  lemma DestNameCollision(a: string, b: string, oldExt: string, newExt: string)
    requires Matches(a, oldExt) && Matches(b, oldExt) && |oldExt| > 0
    requires DestName(a, oldExt, newExt) == DestName(b, oldExt, newExt)
    ensures |a| == |b|
    ensures a[..|a| - |oldExt|] == b[..|b| - |oldExt|]
    ensures Lower(a) == Lower(b)
  {
    DestNameOfMatched(a, oldExt, newExt);
    DestNameOfMatched(b, oldExt, newExt);
    var sa, sb := a[..|a| - |oldExt|], b[..|b| - |oldExt|];
    assert sa == (sa + newExt)[..|sa|];
    assert sb == (sb + newExt)[..|sb|];
    assert |sa| == |sb|;
    assert a == sa + a[|a| - |oldExt|..];
    assert b == sb + b[|b| - |oldExt|..];
    LowerConcat(sa, a[|a| - |oldExt|..]);
    LowerConcat(sb, b[|b| - |oldExt|..]);
    MatchesIff(a, oldExt);
    MatchesIff(b, oldExt);
  }

  /** The confirmation test: the trimmed, lower-cased answer is "y". */
  predicate Confirmed(answer: string) {
    Lower(Strip(answer)) == "y"
  }

  /** The run goes ahead exactly when the answer, trimmed of whitespace, is "y" or "Y". */
  lemma ConfirmedIff(answer: string)
    ensures Confirmed(answer) <==> Strip(answer) == "y" || Strip(answer) == "Y"
  {
    var t := Strip(answer);
    if |t| == 1 {
      LowerCharToY(t[0]);
      assert Lower(t) == [LowerChar(t[0])];
    }
  }

  /** Surrounding whitespace and case do not matter. */
  lemma ConfirmedPadded()
    ensures Confirmed(" Y\n")
  {
    assert TrimStart(" Y\n") == "Y\n" by {
      assert IsSpace(' ') && !IsSpace('Y');
      assert " Y\n"[1..] == "Y\n";
    }
    assert TrimEnd("Y\n") == "Y" by {
      assert IsSpace('\n') && !IsSpace('Y');
      assert "Y\n"[..1] == "Y";
    }
    assert Lower("Y") == "y";
  }

  /** Any answer other than a lone "y" cancels, "yes" included. */
  lemma NotConfirmedYes()
    ensures !Confirmed("yes")
  {
    assert !IsSpace('y') && !IsSpace('s');
    assert TrimStart("yes") == "yes";
    assert TrimEnd("yes") == "yes";
  }
}

=== FILE: text.dfy ===
/**
 The string operations of Python's `str` that the converter relies on:
 `lower`, `endswith`, `strip`, prefix slicing `s[:stop]` and the
 concatenation performed by `writelines`.
 */
module Text {

  /** Lower-casing of one character; only ASCII letters are mapped. */
  function LowerChar(c: char): char {
    if 'A' <= c <= 'Z' then (c as int + 32) as char else c
  }

  /** `s.lower()`, character by character. */
  function Lower(s: string): string {
    seq(|s|, i requires 0 <= i < |s| => LowerChar(s[i]))
  }

  /** `s.endswith(suffix)`; the empty suffix ends every string. */
  predicate EndsWith(s: string, suffix: string) {
    |suffix| <= |s| && s[|s| - |suffix|..] == suffix
  }

  /** Lower-casing commutes with slicing. */
  lemma LowerSlice(s: string, i: nat, j: nat)
    requires i <= j <= |s|
    ensures Lower(s[i..j]) == Lower(s)[i..j]
  {
  }

  /** Lower-casing commutes with concatenation. */
  lemma LowerConcat(a: string, b: string)
    ensures Lower(a + b) == Lower(a) + Lower(b)
  {
  }

  /** The only characters that lower-case to 'y' are 'y' and 'Y'. */
  lemma LowerCharToY(c: char)
    ensures LowerChar(c) == 'y' <==> c == 'y' || c == 'Y'
  {
  }

  /** Python's `str.isspace` for a single character. */
  predicate IsSpace(c: char) {
    var n := c as int;
    || 0x09 <= n <= 0x0D
    || 0x1C <= n <= 0x20
    || n == 0x85
    || n == 0xA0
    || n == 0x1680
    || 0x2000 <= n <= 0x200A
    || n == 0x2028
    || n == 0x2029
    || n == 0x202F
    || n == 0x205F
    || n == 0x3000
  }

  /** `s.lstrip()`: the suffix of `s` left after dropping leading whitespace. */
  function TrimStart(s: string): (r: string)
    ensures |r| <= |s| && r == s[|s| - |r|..]
    ensures forall k :: 0 <= k < |s| - |r| ==> IsSpace(s[k])
    ensures r == [] || !IsSpace(r[0])
  {
    if s != [] && IsSpace(s[0]) then TrimStart(s[1..]) else s
  }

  /** `s.rstrip()`: the prefix of `s` left after dropping trailing whitespace. */
  function TrimEnd(s: string): (r: string)
    ensures |r| <= |s| && r == s[..|r|]
    ensures forall k :: |r| <= k < |s| ==> IsSpace(s[k])
    ensures r == [] || !IsSpace(r[|r| - 1])
  {
    if s != [] && IsSpace(s[|s| - 1]) then TrimEnd(s[..|s| - 1]) else s
  }

  /** `s.strip()`: neither starts nor ends with whitespace. */
  function Strip(s: string): (r: string)
    ensures r == [] || (!IsSpace(r[0]) && !IsSpace(r[|r| - 1]))
  {
    var t := TrimStart(s);
    assert TrimEnd(t) == t[..|TrimEnd(t)|];
    TrimEnd(t)
  }

  /** What `s.strip()` removes is whitespace at either end: the result is the piece of `s` in between. */
  lemma StripSlice(s: string)
    ensures var r, lo := Strip(s), |s| - |TrimStart(s)|;
            && lo + |r| <= |s| && r == s[lo..lo + |r|]
            && (forall k :: 0 <= k < lo ==> IsSpace(s[k]))
            && (forall k :: lo + |r| <= k < |s| ==> IsSpace(s[k]))
  {
    var t := TrimStart(s);
    var r := TrimEnd(t);
    var lo := |s| - |t|;
    assert t == s[lo..];
    assert r == t[..|r|];
    forall k | lo + |r| <= k < |s|
      ensures IsSpace(s[k])
    {
      assert s[k] == t[k - lo];
    }
  }

  /** The end index of Python's slice `s[:stop]`, with negative `stop` counted from the end and clamped. */
  function SliceEnd(n: nat, stop: int): (k: nat)
    ensures k <= n
  {
    if stop < 0 then (if n + stop < 0 then 0 else n + stop)
    else if stop > n then n
    else stop
  }

  /** Python's `s[:stop]`. */
  function PyPrefix(s: string, stop: int): (r: string)
    ensures r <= s
  {
    s[..SliceEnd(|s|, stop)]
  }

  /** What `writelines(lines)` writes: the lines joined with nothing in between. */
  function Concat(lines: seq<string>): string {
    if lines == [] then "" else lines[0] + Concat(lines[1..])
  }

  /** Writing two batches of lines writes their concatenation. */
  lemma {:induction false} ConcatAppend(a: seq<string>, b: seq<string>)
    ensures Concat(a + b) == Concat(a) + Concat(b)
    decreases |a|
  {
    if a == [] {
      assert a + b == b;
    } else {
      assert (a + b)[1..] == a[1..] + b;
      ConcatAppend(a[1..], b);
    }
  }
}

=== FILE: wrappers.dfy ===
/** Small failure-carrying datatypes shared by the other modules. */
module Wrappers {

  /** A value that may be absent, as a missing key of a JSON object. */
  datatype Option<+T> = None | Some(value: T) {

    /** The value, or `default` when absent (Python's `dict.get(key, default)`). */
    function GetOr(default: T): T {
      match this
      case Some(v) => v
      case None => default
    }
  }

  /** The outcome of an operation that may raise. */
  datatype Result<+T, +E> = Ok(value: T) | Err(error: E)
}
